=== FILE: README.md ===
# Sephora Sniper — a Dafny model of the availability monitor

Sephora Sniper watches a list of Sephora stores for one product. It polls the
store locator of the selected country (Italy, Germany or France). For every
watched store found in the answer it prints the availability. For every
watched store that has the product it posts a message to a Discord webhook.
A city lookup helps the operator find store IDs. It suggests the closest city
names by edit distance when no store is in the city typed.

This project models the decision logic of `sephorasniper.go` as pure Dafny
functions and small methods:

- `results.dfy` (`Results`): `Option` and `Result`.
- `text.dfy` (`Text`): the case folding used to compare city names, and
  prefix, suffix and infix predicates.
- `store.dfy` (`Store`): the `Location` fields the program reads, a snapshot
  as a sequence of them, and the fetch step from an HTTP reply to a snapshot
  or an error.
- `schedule.dfy` (`Schedule`): the custom decoder of the `scheduleForJsonLD`
  field over a small JSON value type.
- `availability.dfy` (`Availability`): the matching loop of one check, the
  notification text and the webhook delivery outcome.
- `citylookup.dfy` (`CityLookup`): the exact city lookup, the distance table
  and the top-3 suggestion selection, specified relationally.
- `persist.dfy` (`Persist`): the watch-list file (append one line per ID,
  read line by line) and the interval file (`%d` hours, read back with the
  integer scanner). A file is a value: absent, inaccessible, or present
  with some content.
- `sniper.dfy` (`Sniper`): region to endpoint, the interval as a 64-bit
  nanosecond duration, the one-second countdown, and the start of the
  sniper loop.

I/O is replaced by parameters:

- The store locator's answers are a sequence of `Reply` values, one per cycle.
- The webhook POST is a function from (URL, message) to a `HookReply`.
- The Levenshtein distance is any function `Distance` from two strings to a
  natural. The library's cost model is not assumed.
- Files are `Persist.File` values.

A few behaviours of the program are easy to misread; the model follows the
code:

- Reports come out in snapshot order, not watch-list order. A location whose
  ID appears twice in the snapshot is reported, and notified, twice.
- A notification is attempted even when the webhook URL is empty.
- The suggestion order among cities at equal distance is not fixed. The code
  sorts entries of a Go map with an unstable sort, so the model accepts any
  valid top-3 (`CityLookup.IsTopMatches`). It does not break ties by first
  appearance.
- The watch list and the interval are read again before each display of
  the menu, so an ID or interval entered at the menu is picked up on the
  next pass. The sniper loop keeps the values of the last read for good
  and does not re-read them per cycle. `Sniper.Launch` models one such
  read followed by the start of the loop.
- A fetch error ends the program (`Sniper.Halt.FetchFailed`); it does not
  skip one cycle.
- Adding a store ID appends the ID and a line feed, with no line feed
  before it. When the watch-list file's last line has no line feed (a file
  edited by hand), the new ID joins that line: `IT001` followed by an append
  of `IT002` reads back as the single ID `IT001IT002`
  (`Persist.UnterminatedLineAbsorbsAppend`).
- A fetch error during the city lookup also ends the program. The model
  returns it as `Err` from `CityLookup.GetStoreIdsByCity`.
- For `scheduleForJsonLD`, a JSON `null` decodes to the one-element list
  `[""]`, not to an error. The first attempt, decoding into a Go string, does
  nothing on `null` and reports no error. A `null` element of an array
  becomes `""` as well.

## Model

| member | source | states |
|---|---|---|
| `Store.FetchSnapshot` | sephorasniper.go:165-183 | a snapshot comes out only from a reply with status 200 whose body decodes; an unreachable endpoint, any other status and an undecodable body are distinct errors |
| `Schedule.UnmarshalSchedule` | sephorasniper.go:52-65 | a string s becomes [s] and null becomes [""]; an array decodes iff each element is a string or null, keeping length and order; any other shape is an error with no list |
| `Schedule.DecodeStrings` | sephorasniper.go:59-63 | an array decodes iff every element decodes as a string, and the result has the array's length with each element decoded in place |
| `Schedule.DecodeEncodeRoundTrip` | sephorasniper.go:59-64 | an array of strings decodes back to exactly that list |
| `Schedule.SingleStringMatchesOneElementArray` | sephorasniper.go:52-64 | a single string and the one-element array holding it decode to the same list |
| `Availability.SendNotification` | sephorasniper.go:114-143 | delivery succeeds exactly when the webhook answers 204; any other status is reported with its code |
| `Availability.NotifyMessage` | sephorasniper.go:247 | the message starts with the fixed header, contains the store name and ends with the store address |
| `Availability.FirstMatch` | sephorasniper.go:241-242 | the inner scan finds an ID iff it is on the watch list, and stops at its first occurrence |
| `Availability.CheckLocation` | sephorasniper.go:241-258 | an unwatched location gives no event; a watched one gives exactly its report when it lacks the product, and its report followed by the delivery attempt to the webhook when it has it; never more than two events |
| `Availability.CheckAvailability` | sephorasniper.go:240-260 | every reported ID is watched; a report is followed by a delivery attempt iff the store has the product; each attempt goes to the configured webhook with that store's message |
| `Availability.CheckReportsWatchedLocations` | sephorasniper.go:240-258 | the reports of one check are exactly the watched locations, in snapshot order and with their multiplicity in the snapshot |
| `Availability.CheckDispatchesAvailableWatched` | sephorasniper.go:240-251 | the delivery attempts of one check are exactly those for the watched locations that have the product, in snapshot order, whatever the webhook URL (the empty one included) |
| `Availability.Watched` | sephorasniper.go:240-242 | a location is kept iff its ID is watched, with its multiplicity in the snapshot |
| `Availability.WatchListActsAsSet` | sephorasniper.go:241-257 | two watch lists with the same members give the same cycle output, so duplicates in the list are harmless |
| `Availability.DeliveryFailuresDoNotStopTheCycle` | sephorasniper.go:248-251 | whatever the webhook answers, the same stores are reported and as many deliveries are attempted |
| `Text.Lower` | sephorasniper.go:347-352 | folding keeps the length and lowers each character on its own, position by position, as the lookup does to the query and to each city before comparing |
| `CityLookup.ExactMatches` | sephorasniper.go:347-357 | a location is listed iff its city equals the query up to case, with its multiplicity in the snapshot |
| `CityLookup.CityDistances` | sephorasniper.go:382-397 | the table has one key per distinct original-case city of the snapshot, holding the distance of the folded query to the folded city |
| `CityLookup.FindTopMatches` | sephorasniper.go:410-434 | the answer has min(k, number of cities) distinct cities in non-decreasing distance, and no city left out is strictly closer than one taken |
| `CityLookup.TopMatchesDistanceProfile` | sephorasniper.go:418-431 | all acceptable top-k answers have the same length and the same distance at each position; only ties vary |
| `CityLookup.SuggestSimilarCities` | sephorasniper.go:378-407 | the suggestions are an acceptable top-3 of the distance table of the snapshot |
| `CityLookup.GetStoreIdsByCity` | sephorasniper.go:334-375 | a fetch error is returned as the lookup's error (the program exits on it); an empty snapshot ends before any comparison; otherwise the exact matches when there are any, and only then 1 to 3 suggestions |
| `Persist.ScanLines` | sephorasniper.go:274-278 | no line read back contains a line feed |
| `Persist.ReadStoreIds` | sephorasniper.go:264-285 | a missing file reads as the empty list; only an inaccessible file is an error |
| `Persist.WriteStoreId` | sephorasniper.go:288-301 | an append creates the file if needed and adds the ID and a line feed after the unchanged old content |
| `Persist.AppendedLineReadBack` | sephorasniper.go:274-296 | appending a line-safe ID to a terminated file adds exactly that ID at the end of what is read back |
| `Persist.StoreIdsRoundTrip` | sephorasniper.go:274-296 | a file made of appended line-safe IDs reads back as those IDs in order |
| `Persist.WriteThenReadStoreIds` | sephorasniper.go:264-301 | appending IDs one by one to a missing file and reading it gives those IDs |
| `Persist.AppendStoreIdThenRead` | sephorasniper.go:264-301 | on a missing file, or on one whose last line ends with a line feed, one append of a line-safe ID then a read gives the previous list followed by the new ID |
| `Persist.UnterminatedLineAbsorbsAppend` | sephorasniper.go:274-296 | on a file whose single line has no line feed, an append glues the new ID onto that line, so the read gives one merged ID and not the previous list plus the new one |
| `Persist.ParseInt` | sephorasniper.go:314-318 | a successful read is within the 64-bit range; text made only of white space is an error |
| `Persist.ParseMagnitude` | sephorasniper.go:314-318 | an unsigned number reads only when digits come first, and then as the value of that leading run of digits |
| `Persist.ReadInterval` | sephorasniper.go:304-320 | a missing interval file reads as 0 hours; an inaccessible one is an error |
| `Persist.WriteInterval` | sephorasniper.go:323-332 | writing overwrites the whole file, failing only when the file is inaccessible |
| `Persist.FormatInt` | sephorasniper.go:330 | the `%d` spelling is never empty, starts with a minus sign exactly for a negative value, and is otherwise all decimal digits |
| `Persist.ParseFormatRoundTrip` | sephorasniper.go:315-330 | the %d spelling of any 64-bit integer reads back as that integer |
| `Persist.IntervalRoundTrip` | sephorasniper.go:304-332 | writing h hours and reading the interval back gives h, whatever the file held before |
| `Sniper.SelectRegion` | sephorasniper.go:507-514 | exactly "IT" selects Italy, exactly "DE" selects Germany, and every other stored text selects France |
| `Sniper.RegionSelectionRoundTrip` | sephorasniper.go:491-514 | each code the first-run prompt stores selects its own region, and the three regions use three different endpoints |
| `Sniper.FranceEndpointSpelledOut` | sephorasniper.go:27 | the French endpoint, assembled from its parts, is the program's French constant, character for character |
| `Sniper.ItalyEndpointSpelledOut` | sephorasniper.go:28 | the Italian endpoint is the program's Italian constant, search radius 15000 included |
| `Sniper.GermanyEndpointSpelledOut` | sephorasniper.go:29 | the German endpoint is the program's German constant |
| `Sniper.IntervalOf` | sephorasniper.go:319 | the duration fits 64 bits, equals hours times one hour in nanoseconds for up to 2562047 hours either way, and beyond that is the exact product wrapped modulo 2^64 as a signed 64-bit value |
| `Sniper.Countdown` | sephorasniper.go:650-653 | no tick for a non-positive interval; otherwise one tick per started second, the i-th showing the whole seconds left after i ticks |
| `Sniper.RunCountdown` | sephorasniper.go:650-653 | the countdown loop shows exactly the sequence Countdown describes |
| `Sniper.WholeHourCountdown` | sephorasniper.go:650-653 | for h hours with 0 < h, the loop ticks 3600·h times showing 3600·h down to 1; for h <= 0 it does not wait |
| `Sniper.OverflowingIntervalSkipsTheWait` | sephorasniper.go:319 | one hour beyond the 64-bit range wraps to a negative duration, so the loop does not wait |
| `Sniper.Poll` | sephorasniper.go:642-656 | each good reply yields one cycle, with that snapshot's check and the interval's countdown; the first failed fetch ends the session with its error |
| `Sniper.StartSniper` | sephorasniper.go:635-657 | an empty watch list refuses to start and runs no cycle; a non-empty one runs the loop, which ends only when a fetch fails, every cycle checking the same list and waiting the same interval |
| `Sniper.Launch` | sephorasniper.go:538-548 | an unusable settings file stops the program; a first run with no watch-list file refuses to start; readable files start the loop on exactly the IDs and interval read, and no interval file means no wait between cycles |
| `Sniper.LaunchWatchesEnteredIds` | sephorasniper.go:538-548 | after IDs are entered one by one into a missing watch-list file, with no interval set, the loop starts and each cycle checks exactly those IDs without waiting; it stops only at a reply whose fetch fails, with that error, or when the observed replies run out |

## Left out

- HTTP transport, TLS settings, timeouts and request headers: each exchange
  with the store locator is a `Store.Reply` value, and each webhook POST is a
  `HookReply` from a function parameter.
- JSON decoding of the whole store response and of JSON text. Only `id`,
  `name`, `city`, `address1` and `product_availability` are modelled, and the
  `scheduleForJsonLD` decoder works on parsed JSON values.
- The JSON encoding of the webhook payload `{"content": ...}`: library
  behaviour with nothing to decide.
- The Levenshtein library: its source is not part of this model, so the
  distance is a parameter.
- The float fields of a location (coordinates, distance). They play no part
  in any decision.
- `Text.LowerChar`: folds only ASCII and Latin-1 capitals. Go's `strings.ToLower`
  also folds the rest of Unicode.
- `Persist.ParseInt`: is weaker than the scanner. Integers spelled with a base
  prefix, with a leading zero (read as octal), or with `_` separators are
  reported as `UnsupportedNumeral`, not decoded. The program never writes
  such spellings.
- `Persist.ScanLines`: the scanner's 64 KiB limit on one line, which makes a
  longer line an error, is not modelled.
- `Persist.WriteInterval`: takes the hour count the operator typed. The
  program writes `int(interval.Hours())`, a float round trip that gives the
  same number only within the 64-bit range of `Sniper.IntervalOf`.
- `Persist.IntervalRoundTrip`: covers the whole 64-bit range of hour counts,
  because it starts from the hour count the operator typed. The program
  writes `int(interval.Hours())` of the wrapped duration, so for the program
  the round trip gives h back only when |h| <= 2562047 (`Sniper.MaxWholeHours`).
- `Sniper.Countdown`: shows remaining nanoseconds divided by 10^9, rounded
  down. The program converts through a float, which agrees whenever the
  remaining time is a whole number of seconds. That holds for every interval
  of whole hours within range.
- The interactive menu, banner, colours, keyboard input, sleeping,
  timestamps and process exits. Fatal paths of the sniper loop become
  `Sniper.Halt` values. A fetch error in the city lookup, fatal in the
  program, is the `Err` result of `CityLookup.GetStoreIdsByCity`.
- The process-wide `storeResponse` variable. The snapshot is passed
  explicitly, so a later response is never merged into an earlier one.
- The country and webhook files (whole-file read and write) and the
  "webhook added" display. The region change of menu option 5 stores the
  typed text without upper-casing it, so `SelectRegion` sends a lower-case
  "it" to France.

=== FILE: availability.dfy ===
/** The availability check of one polling cycle: every location of the
    snapshot whose ID is on the watch list is reported, and every such
    location that has the product triggers one webhook notification. */
module Availability {
  import opened Results
  import opened Text
  import opened Store

  /** What the HTTP client hands back for the webhook POST: no status at all
      (bad URL, connection failure, ...), or a status code. */
  datatype HookReply = HookUnreachable | HookStatus(code: int)

  datatype DeliveryError = SendFailed | UnexpectedStatus(code: int)

  const StatusNoContent: int := 204

  /** One delivery attempt of `message` to the webhook at `url`, where `post`
      stands for the HTTP exchange carrying the JSON body {"content": message}.
      Delivery succeeds exactly on a 204 answer; there is no retry. */
  function SendNotification(url: string, message: string, post: (string, string) -> HookReply)
    : (r: Result<(), DeliveryError>)
    ensures r.Ok? <==> post(url, message) == HookStatus(StatusNoContent)
    ensures post(url, message).HookStatus? && !r.Ok? ==>
              r == Err(UnexpectedStatus(post(url, message).code))
  {
    match post(url, message)
    case HookUnreachable => Err(SendFailed)
    case HookStatus(code) =>
      if code == StatusNoContent then Ok(()) else Err(UnexpectedStatus(code))
  }

  /** Fixed text of the notification, around the store name and address. */
  const Header: string :=
    "**\U{1F6CD}\U{FE0F} SEPHORA SNIPER \U{1F3EA}** \n \U{1F6D2} The Product is available in the store **"
  const AddressLabel: string := "**! \nStore Address: "

  /** The notification text for a store: it names the store and ends with its
      street address. */
  function NotifyMessage(name: string, address: string): (m: string)
    ensures IsPrefix(Header, m)
    ensures IsInfix(name, m)
    ensures IsSuffix(address, m)
  {
    var m := Header + name + AddressLabel + address;
    assert m[|Header|..][..|name|] == name;
    m
  }

  /** One line of the cycle's output.  `Reported` is the per-store console
      line (green when available, yellow otherwise); `Dispatched` is one
      webhook delivery attempt together with its outcome. */
  datatype Event =
    | Reported(id: string, name: string, address: string, available: bool)
    | Dispatched(url: string, message: string, outcome: Result<(), DeliveryError>)

  function ReportOf(loc: Location): Event {
    Reported(loc.id, loc.name, loc.address1, loc.productAvailability)
  }

  function DispatchOf(loc: Location, hook: string, post: (string, string) -> HookReply): Event {
    var message := NotifyMessage(loc.name, loc.address1);
    Dispatched(hook, message, SendNotification(hook, message, post))
  }

  /** The inner scan over the watch list, which stops at the first equal ID. */
  function FirstMatch(id: string, watch: seq<string>): (r: Option<nat>)
    ensures r.None? <==> id !in watch
    ensures r.Some? ==> r.value < |watch| && watch[r.value] == id
    ensures r.Some? ==> forall j :: 0 <= j < r.value ==> watch[j] != id
  {
    if |watch| == 0 then None
    else if watch[0] == id then Some(0)
    else
      match FirstMatch(id, watch[1..])
      case None => None
      case Some(k) => Some(k + 1)
  }

  /** The events for one location: none when its ID is not watched, otherwise
      one report, followed by one delivery attempt when the product is there. */
  function CheckLocation(loc: Location, watch: seq<string>, hook: string, post: (string, string) -> HookReply)
    : (r: seq<Event>)
    ensures loc.id !in watch ==> r == []
    ensures loc.id in watch ==> |r| > 0 && r[0] == ReportOf(loc)
    ensures |r| == 2 <==> loc.id in watch && loc.productAvailability
    ensures |r| == 2 ==> r[1] == DispatchOf(loc, hook, post)
    ensures loc.id in watch && !loc.productAvailability ==> r == [ReportOf(loc)]
    ensures |r| <= 2
  {
    if FirstMatch(loc.id, watch).None? then []
    else if loc.productAvailability then [ReportOf(loc), DispatchOf(loc, hook, post)]
    else [ReportOf(loc)]
  }

  /** The shape every cycle's output has: every reported ID is on the watch
      list; a report is followed by a delivery attempt exactly when the store
      has the product; and a delivery attempt comes right after the report of
      an available store, goes to the configured webhook and carries that
      store's message. */
  ghost predicate WellShaped(trace: seq<Event>, watch: seq<string>, hook: string) {
    && ReportsWatched(trace, watch)
    && ReportsAnnounceDispatch(trace)
    && DispatchesFollowReports(trace, hook)
  }

  ghost predicate ReportsWatched(trace: seq<Event>, watch: seq<string>) {
    forall i :: 0 <= i < |trace| && trace[i].Reported? ==> trace[i].id in watch
  }

  ghost predicate ReportsAnnounceDispatch(trace: seq<Event>) {
    forall i :: 0 <= i < |trace| && trace[i].Reported? ==>
      (trace[i].available <==> i + 1 < |trace| && trace[i + 1].Dispatched?)
  }

  ghost predicate DispatchesFollowReports(trace: seq<Event>, hook: string) {
    forall i :: 0 <= i < |trace| && trace[i].Dispatched? ==>
      && i > 0 && trace[i - 1].Reported? && trace[i - 1].available
      && trace[i].url == hook
      && trace[i].message == NotifyMessage(trace[i - 1].name, trace[i - 1].address)
  }

  lemma WellShapedPrepend(
    loc: Location, watch: seq<string>, hook: string, post: (string, string) -> HookReply, tail: seq<Event>)
    requires WellShaped(tail, watch, hook)
    ensures WellShaped(CheckLocation(loc, watch, hook, post) + tail, watch, hook)
  {
    var head := CheckLocation(loc, watch, hook, post);
    assert |tail| > 0 ==> !tail[0].Dispatched?;
    if FirstMatch(loc.id, watch).None? {
      assert head + tail == tail;
    } else {
      if loc.productAvailability {
        assert head == [ReportOf(loc), DispatchOf(loc, hook, post)];
      } else {
        assert head == [ReportOf(loc)];
      }
      ReportsWatchedPrepend(head, tail, watch);
      ReportsAnnounceDispatchPrepend(head, tail);
      DispatchesFollowReportsPrepend(head, tail, hook);
    }
  }

  lemma ReportsWatchedPrepend(head: seq<Event>, tail: seq<Event>, watch: seq<string>)
    requires 0 < |head| <= 2 && head[0].Reported? && head[0].id in watch
    requires |head| == 2 ==> head[1].Dispatched?
    requires ReportsWatched(tail, watch)
    ensures ReportsWatched(head + tail, watch)
  {
    var t := head + tail;
    forall i | 0 <= i < |t| && t[i].Reported?
      ensures t[i].id in watch
    {
      if i >= |head| {
        assert t[i] == tail[i - |head|];
      }
    }
  }

  lemma ReportsAnnounceDispatchPrepend(head: seq<Event>, tail: seq<Event>)
    requires 0 < |head| <= 2 && head[0].Reported?
    requires |head| == 2 <==> head[0].available
    requires |head| == 2 ==> head[1].Dispatched?
    requires |tail| > 0 ==> !tail[0].Dispatched?
    requires ReportsAnnounceDispatch(tail)
    ensures ReportsAnnounceDispatch(head + tail)
  {
    var t := head + tail;
    forall i | 0 <= i < |t| && t[i].Reported?
      ensures t[i].available <==> i + 1 < |t| && t[i + 1].Dispatched?
    {
      if i >= |head| {
        var j := i - |head|;
        assert t[i] == tail[j];
        assert tail[j].available <==> j + 1 < |tail| && tail[j + 1].Dispatched?;
        if i + 1 < |t| {
          assert t[i + 1] == tail[j + 1];
        }
      } else {
        assert i == 0;
        assert t[i] == head[i];
        if i + 1 < |head| {
          assert t[i + 1] == head[i + 1];
        } else if i + 1 < |t| {
          assert t[i + 1] == tail[0];
        }
      }
    }
  }

  lemma DispatchesFollowReportsPrepend(head: seq<Event>, tail: seq<Event>, hook: string)
    requires 0 < |head| <= 2 && head[0].Reported?
    requires |head| == 2 ==> && head[0].available && head[1].Dispatched? && head[1].url == hook
                             && head[1].message == NotifyMessage(head[0].name, head[0].address)
    requires |tail| > 0 ==> !tail[0].Dispatched?
    requires DispatchesFollowReports(tail, hook)
    ensures DispatchesFollowReports(head + tail, hook)
  {
    var t := head + tail;
    forall i | 0 <= i < |t| && t[i].Dispatched?
      ensures && i > 0 && t[i - 1].Reported? && t[i - 1].available
              && t[i].url == hook
              && t[i].message == NotifyMessage(t[i - 1].name, t[i - 1].address)
    {
      if i >= |head| {
        var j := i - |head|;
        assert t[i] == tail[j];
        assert j > 0;
        assert t[i - 1] == tail[j - 1];
      }
    }
  }

  /** The matching loop of one cycle: locations in snapshot order on the
      outside, the watch list on the inside, and the output has the shape
      described by WellShaped. */
  function CheckAvailability(locs: Snapshot, watch: seq<string>, hook: string, post: (string, string) -> HookReply)
    : (trace: seq<Event>)
    ensures WellShaped(trace, watch, hook)
  {
    if |locs| == 0 then []
    else
      var tail := CheckAvailability(locs[1..], watch, hook, post);
      WellShapedPrepend(locs[0], watch, hook, post, tail);
      CheckLocation(locs[0], watch, hook, post) + tail
  }

  /** Reference view: the snapshot's locations whose ID is watched, in
      snapshot order and with their multiplicity. */
  function Watched(locs: Snapshot, watch: seq<string>): (r: Snapshot)
    ensures forall l :: l in r <==> l in locs && l.id in watch
    ensures forall l :: multiset(r)[l] == if l.id in watch then multiset(locs)[l] else 0
  {
    if |locs| == 0 then []
    else
      assert locs == [locs[0]] + locs[1..];
      (if locs[0].id in watch then [locs[0]] else []) + Watched(locs[1..], watch)
  }

  function Reports(trace: seq<Event>): seq<Event> {
    if |trace| == 0 then []
    else (if trace[0].Reported? then [trace[0]] else []) + Reports(trace[1..])
  }

  function Dispatches(trace: seq<Event>): seq<Event> {
    if |trace| == 0 then []
    else (if trace[0].Dispatched? then [trace[0]] else []) + Dispatches(trace[1..])
  }

  function ReportsOf(locs: Snapshot): seq<Event> {
    if |locs| == 0 then [] else [ReportOf(locs[0])] + ReportsOf(locs[1..])
  }

  function DispatchesOf(locs: Snapshot, hook: string, post: (string, string) -> HookReply): seq<Event> {
    if |locs| == 0 then []
    else
      (if locs[0].productAvailability then [DispatchOf(locs[0], hook, post)] else [])
      + DispatchesOf(locs[1..], hook, post)
  }

  lemma {:induction false} ReportsAppend(a: seq<Event>, b: seq<Event>)
    ensures Reports(a + b) == Reports(a) + Reports(b)
    decreases |a|
  {
    if |a| == 0 {
      assert a + b == b;
    } else {
      var first := if a[0].Reported? then [a[0]] else [];
      calc {
        Reports(a + b);
        { assert (a + b)[0] == a[0]; assert (a + b)[1..] == a[1..] + b; }
        first + Reports(a[1..] + b);
        { ReportsAppend(a[1..], b); }
        first + (Reports(a[1..]) + Reports(b));
        (first + Reports(a[1..])) + Reports(b);
      }
    }
  }

  lemma {:induction false} DispatchesAppend(a: seq<Event>, b: seq<Event>)
    ensures Dispatches(a + b) == Dispatches(a) + Dispatches(b)
    decreases |a|
  {
    if |a| == 0 {
      assert a + b == b;
    } else {
      var first := if a[0].Dispatched? then [a[0]] else [];
      calc {
        Dispatches(a + b);
        { assert (a + b)[0] == a[0]; assert (a + b)[1..] == a[1..] + b; }
        first + Dispatches(a[1..] + b);
        { DispatchesAppend(a[1..], b); }
        first + (Dispatches(a[1..]) + Dispatches(b));
        (first + Dispatches(a[1..])) + Dispatches(b);
      }
    }
  }

  /** What one location contributes, seen through the two filters. */
  lemma CheckLocationFiltered(loc: Location, watch: seq<string>, hook: string, post: (string, string) -> HookReply)
    ensures Reports(CheckLocation(loc, watch, hook, post)) ==
            ReportsOf(if loc.id in watch then [loc] else [])
    ensures Dispatches(CheckLocation(loc, watch, hook, post)) ==
            DispatchesOf(if loc.id in watch then [loc] else [], hook, post)
  {
    var head := CheckLocation(loc, watch, hook, post);
    if loc.id in watch {
      assert ReportsOf([loc]) == [ReportOf(loc)];
      if loc.productAvailability {
        var d := DispatchOf(loc, hook, post);
        assert head == [ReportOf(loc), d];
        assert head[1..] == [d] && head[1..][1..] == [];
        assert Reports([d]) == [];
        assert Dispatches([d]) == [d];
        assert DispatchesOf([loc], hook, post) == [d];
      } else {
        assert head == [ReportOf(loc)];
        assert DispatchesOf([loc], hook, post) == [];
      }
    } else {
      assert head == [];
    }
  }

  lemma PrefixFiltered(first: Snapshot, rest: Snapshot, hook: string, post: (string, string) -> HookReply)
    requires |first| <= 1
    ensures ReportsOf(first + rest) == ReportsOf(first) + ReportsOf(rest)
    ensures DispatchesOf(first + rest, hook, post) == DispatchesOf(first, hook, post) + DispatchesOf(rest, hook, post)
  {
    if |first| == 0 {
      assert first + rest == rest;
    } else {
      assert (first + rest)[0] == first[0];
      assert (first + rest)[1..] == rest;
      assert first[1..] == [];
    }
  }

  /** The cycle reports exactly the watched locations: one report per such
      location, in snapshot order, and nothing else. */
  lemma {:induction false} CheckReportsWatchedLocations(
    locs: Snapshot, watch: seq<string>, hook: string, post: (string, string) -> HookReply)
    ensures Reports(CheckAvailability(locs, watch, hook, post)) == ReportsOf(Watched(locs, watch))
    decreases |locs|
  {
    if |locs| > 0 {
      var loc := locs[0];
      var head := CheckLocation(loc, watch, hook, post);
      var tail := CheckAvailability(locs[1..], watch, hook, post);
      var first := if loc.id in watch then [loc] else [];
      calc {
        Reports(CheckAvailability(locs, watch, hook, post));
        { assert CheckAvailability(locs, watch, hook, post) == head + tail; ReportsAppend(head, tail); }
        Reports(head) + Reports(tail);
        { CheckReportsWatchedLocations(locs[1..], watch, hook, post); CheckLocationFiltered(loc, watch, hook, post); }
        ReportsOf(first) + ReportsOf(Watched(locs[1..], watch));
        { PrefixFiltered(first, Watched(locs[1..], watch), hook, post); }
        ReportsOf(first + Watched(locs[1..], watch));
      }
    }
  }

  /** The cycle attempts exactly one delivery for each watched location that
      has the product, in snapshot order, whatever the webhook URL (even an
      empty one). */
  lemma {:induction false} CheckDispatchesAvailableWatched(
    locs: Snapshot, watch: seq<string>, hook: string, post: (string, string) -> HookReply)
    ensures Dispatches(CheckAvailability(locs, watch, hook, post)) == DispatchesOf(Watched(locs, watch), hook, post)
    decreases |locs|
  {
    if |locs| > 0 {
      var loc := locs[0];
      var head := CheckLocation(loc, watch, hook, post);
      var tail := CheckAvailability(locs[1..], watch, hook, post);
      var first := if loc.id in watch then [loc] else [];
      calc {
        Dispatches(CheckAvailability(locs, watch, hook, post));
        { assert CheckAvailability(locs, watch, hook, post) == head + tail; DispatchesAppend(head, tail); }
        Dispatches(head) + Dispatches(tail);
        { CheckDispatchesAvailableWatched(locs[1..], watch, hook, post); CheckLocationFiltered(loc, watch, hook, post); }
        DispatchesOf(first, hook, post) + DispatchesOf(Watched(locs[1..], watch), hook, post);
        { PrefixFiltered(first, Watched(locs[1..], watch), hook, post); }
        DispatchesOf(first + Watched(locs[1..], watch), hook, post);
      }
    }
  }

  /** Only membership in the watch list matters: listing an ID twice, or in
      another order, changes nothing in the cycle. */
  lemma {:induction false} WatchListActsAsSet(
    locs: Snapshot, w1: seq<string>, w2: seq<string>, hook: string, post: (string, string) -> HookReply)
    requires forall x :: x in w1 <==> x in w2
    ensures CheckAvailability(locs, w1, hook, post) == CheckAvailability(locs, w2, hook, post)
    decreases |locs|
  {
    if |locs| > 0 {
      assert FirstMatch(locs[0].id, w1).None? == FirstMatch(locs[0].id, w2).None?;
      WatchListActsAsSet(locs[1..], w1, w2, hook, post);
    }
  }

  /** A failed delivery changes nothing but its own outcome: whatever the
      webhook answers, the same stores are reported and the same number of
      deliveries is attempted. */
  lemma DeliveryFailuresDoNotStopTheCycle(
    locs: Snapshot, watch: seq<string>, hook: string,
    post1: (string, string) -> HookReply, post2: (string, string) -> HookReply)
    ensures Reports(CheckAvailability(locs, watch, hook, post1)) ==
            Reports(CheckAvailability(locs, watch, hook, post2))
    ensures |Dispatches(CheckAvailability(locs, watch, hook, post1))| ==
            |Dispatches(CheckAvailability(locs, watch, hook, post2))|
  {
    CheckReportsWatchedLocations(locs, watch, hook, post1);
    CheckReportsWatchedLocations(locs, watch, hook, post2);
    CheckDispatchesAvailableWatched(locs, watch, hook, post1);
    CheckDispatchesAvailableWatched(locs, watch, hook, post2);
    DispatchCountIndependent(Watched(locs, watch), hook, post1, post2);
  }

  lemma {:induction false} DispatchCountIndependent(
    locs: Snapshot, hook: string,
    post1: (string, string) -> HookReply, post2: (string, string) -> HookReply)
    ensures |DispatchesOf(locs, hook, post1)| == |DispatchesOf(locs, hook, post2)|
    decreases |locs|
  {
    if |locs| > 0 {
      DispatchCountIndependent(locs[1..], hook, post1, post2);
    }
  }
}

=== FILE: citylookup.dfy ===
/** City lookup: the stores of a city named by the operator, matched
    case-insensitively, and, when no store matches, the closest city names by
    an edit distance. */
module CityLookup {
  import opened Results
  import opened Text
  import opened Store

  /** The edit distance of the external Levenshtein library, whose cost model
      is not part of this model: any function from two strings to a natural. */
  type Distance = (string, string) -> nat

  /** How many suggestions the fallback offers. */
  const MaxSuggestions: nat := 3

  predicate CityMatches(query: string, loc: Location) {
    Lower(loc.city) == Lower(query)
  }

  /** The exact path: a full scan keeping, in snapshot order, every location
      whose city equals the query up to case. */
  function ExactMatches(query: string, locs: Snapshot): (r: Snapshot)
    ensures forall l :: l in r <==> l in locs && CityMatches(query, l)
    ensures forall l :: multiset(r)[l] == if CityMatches(query, l) then multiset(locs)[l] else 0
  {
    if |locs| == 0 then []
    else
      assert locs == [locs[0]] + locs[1..];
      (if CityMatches(query, locs[0]) then [locs[0]] else []) + ExactMatches(query, locs[1..])
  }

  /** The distinct city names of a snapshot, in their original case. */
  function Cities(locs: Snapshot): set<string> {
    set l | l in locs :: l.city
  }

  /** The distance table of the fallback, filled store by store: one entry per
      distinct original-case city, holding the distance between the folded
      query and the folded city (a later store with the same city rewrites the
      same value). */
  function CityDistances(query: string, locs: Snapshot, dist: Distance): (m: map<string, nat>)
    ensures m.Keys == Cities(locs)
    ensures forall c :: c in m ==> m[c] == dist(Lower(query), Lower(c))
  {
    if |locs| == 0 then map[]
    else
      var init := locs[..|locs| - 1];
      var last := locs[|locs| - 1];
      assert locs == init + [last];
      assert Cities(locs) == Cities(init) + {last.city};
      CityDistances(query, init, dist)[last.city := dist(Lower(query), Lower(last.city))]
  }

  function Min(a: nat, b: nat): nat {
    if a <= b then a else b
  }

  predicate Distinct(r: seq<string>) {
    forall i, j :: 0 <= i < j < |r| ==> r[i] != r[j]
  }

  /** `r` is an acceptable answer of the top-k selection over `m`: as many
      distinct keys as k allows (or all of them), in non-decreasing distance,
      and no key left out is strictly closer than a key taken.  Keys at equal
      distance may come in any order and, at the cut, either may be taken. */
  predicate IsTopMatches(m: map<string, nat>, k: nat, r: seq<string>) {
    && |r| == Min(k, |m|)
    && (forall i :: 0 <= i < |r| ==> r[i] in m)
    && Distinct(r)
    && (forall i, j :: 0 <= i < j < |r| ==> m[r[i]] <= m[r[j]])
    && (forall c, i :: c in m && c !in r && 0 <= i < |r| ==> m[r[i]] <= m[c])
  }

  /** A key of `rest` at the smallest distance. */
  method ClosestKey(m: map<string, nat>, rest: set<string>) returns (c: string)
    requires rest != {} && rest <= m.Keys
    ensures c in rest
    ensures forall x :: x in rest ==> m[c] <= m[x]
  {
    c :| c in rest;
    var todo := rest - {c};
    while todo != {}
      invariant todo <= rest
      invariant c in rest
      invariant forall x :: x in rest && x !in todo ==> m[c] <= m[x]
      decreases |todo|
    {
      var y :| y in todo;
      if m[y] < m[c] {
        c := y;
      }
      todo := todo - {y};
    }
  }

  /** The selection of the k closest cities.  The program sorts the map's
      entries with an unstable sort after a randomised map iteration, so its
      answer is any one satisfying IsTopMatches; this method computes one of
      them by repeated selection of a closest remaining key. */
  method FindTopMatches(m: map<string, nat>, k: nat) returns (r: seq<string>)
    ensures IsTopMatches(m, k, r)
  {
    r := [];
    var rest := m.Keys;
    assert |rest| == |m|;
    while |r| < k && rest != {}
      invariant rest <= m.Keys
      invariant forall c :: c in m ==> (c in rest <==> c !in r)
      invariant |rest| + |r| == |m|
      invariant |r| <= k
      invariant forall i :: 0 <= i < |r| ==> r[i] in m
      invariant Distinct(r)
      invariant forall i, j :: 0 <= i < j < |r| ==> m[r[i]] <= m[r[j]]
      invariant forall c, i :: c in rest && 0 <= i < |r| ==> m[r[i]] <= m[c]
      decreases |rest|
    {
      var c := ClosestKey(m, rest);
      r := r + [c];
      rest := rest - {c};
    }
  }

  /** The fallback: the three cities of the snapshot closest to the query. */
  method SuggestSimilarCities(query: string, locs: Snapshot, dist: Distance) returns (r: seq<string>)
    ensures IsTopMatches(CityDistances(query, locs, dist), MaxSuggestions, r)
  {
    var m := CityDistances(query, locs, dist);
    r := FindTopMatches(m, MaxSuggestions);
  }

  /** Whatever order ties come out in, every acceptable top-k answer has the
      same length and the same distance at every position. */
  lemma TopMatchesDistanceProfile(m: map<string, nat>, k: nat, r1: seq<string>, r2: seq<string>)
    requires IsTopMatches(m, k, r1) && IsTopMatches(m, k, r2)
    ensures |r1| == |r2|
    ensures forall i :: 0 <= i < |r1| ==> m[r1[i]] == m[r2[i]]
  {
    forall i | 0 <= i < |r1|
      ensures m[r1[i]] == m[r2[i]]
    {
      NoFartherAt(m, k, r1, r2, i);
      NoFartherAt(m, k, r2, r1, i);
    }
  }

  /** Position i of an acceptable answer is never farther than position i of
      another: among the i+1 keys r1[0..i] one is not among r2[0..i-1], and
      that key bounds r2[i] from above. */
  lemma NoFartherAt(m: map<string, nat>, k: nat, r1: seq<string>, r2: seq<string>, i: nat)
    requires IsTopMatches(m, k, r1) && IsTopMatches(m, k, r2)
    requires i < |r1|
    ensures m[r2[i]] <= m[r1[i]]
  {
    assert |r2| == |r1|;
    var taken := ElementsBefore(r1, i + 1);
    var room := ElementsBefore(r2, i);
    ElementsBeforeCard(r1, i + 1);
    ElementsBeforeCard(r2, i);
    var x := ElementOutside(taken, room);
    var j :| 0 <= j < i + 1 && r1[j] == x;
    assert x in m && m[x] <= m[r1[i]] by {
      if j < i { assert m[r1[j]] <= m[r1[i]]; }
    }
    if x in r2 {
      var p :| 0 <= p < |r2| && r2[p] == x;
      forall q | 0 <= q < i
        ensures r2[q] != x
      {
        assert r2[q] in room;
      }
      assert i <= p;
      if i < p { assert m[r2[i]] <= m[r2[p]]; }
    } else {
      assert m[r2[i]] <= m[x];
    }
  }

  /** A larger set has an element outside a smaller one. */
  lemma ElementOutside(a: set<string>, b: set<string>) returns (x: string)
    requires |a| > |b|
    ensures x in a && x !in b
  {
    assert a == (a - b) + (a * b);
    SubsetCard(a * b, b);
    assert |a - b| > 0;
    x :| x in a - b;
  }

  function ElementsBefore(s: seq<string>, n: nat): set<string>
    requires n <= |s|
  {
    set j | 0 <= j < n :: s[j]
  }

  lemma {:induction false} ElementsBeforeCard(s: seq<string>, n: nat)
    requires n <= |s|
    ensures |ElementsBefore(s, n)| <= n
    ensures Distinct(s) ==> |ElementsBefore(s, n)| == n
  {
    if n > 0 {
      ElementsBeforeCard(s, n - 1);
      assert ElementsBefore(s, n) == ElementsBefore(s, n - 1) + {s[n - 1]};
    }
  }

  lemma SubsetCard(a: set<string>, b: set<string>)
    requires a <= b
    ensures |a| <= |b|
  {
    assert b == a + (b - a);
  }

  /** What a city lookup ends in. */
  datatype Lookup =
    | NoStores                      // the snapshot lists no store at all
    | Found(stores: Snapshot)       // the stores of the city, printed as ID and address
    | Suggested(cities: seq<string>) // no store in that city: the closest city names

  /** The lookup of a city: fetch the snapshot; an empty snapshot ends the
      lookup before anything is compared; otherwise the exact matches, and
      only when there are none, the suggestions. */
  method GetStoreIdsByCity(query: string, reply: Reply, dist: Distance)
    returns (r: Result<Lookup, FetchError>)
    ensures FetchSnapshot(reply).Err? ==> r == Err(FetchSnapshot(reply).error)
    ensures FetchSnapshot(reply).Ok? ==> r.Ok?
    ensures r.Ok? ==> FetchSnapshot(reply).Ok?
    ensures r.Ok? ==> (r.value.NoStores? <==> |FetchSnapshot(reply).value| == 0)
    ensures r.Ok? && r.value.Found? ==>
              r.value.stores == ExactMatches(query, FetchSnapshot(reply).value) && |r.value.stores| > 0
    ensures r.Ok? && r.value.Suggested? ==>
              && ExactMatches(query, FetchSnapshot(reply).value) == []
              && IsTopMatches(CityDistances(query, FetchSnapshot(reply).value, dist), MaxSuggestions, r.value.cities)
              && 1 <= |r.value.cities| <= MaxSuggestions
    ensures r.Ok? && |FetchSnapshot(reply).value| > 0 && ExactMatches(query, FetchSnapshot(reply).value) != [] ==>
              r.value.Found?
  {
    var fetched := FetchSnapshot(reply);
    if fetched.Err? {
      return Err(fetched.error);
    }
    var locs := fetched.value;
    if |locs| == 0 {
      return Ok(NoStores);
    }
    var exact := ExactMatches(query, locs);
    if |exact| > 0 {
      return Ok(Found(exact));
    }
    var m := CityDistances(query, locs, dist);
    assert locs[0].city in m.Keys;
    assert |m| == |m.Keys| >= 1;
    var suggestions := SuggestSimilarCities(query, locs, dist);
    assert 1 <= |suggestions| <= MaxSuggestions;
    return Ok(Suggested(suggestions));
  }
}

=== FILE: persist.dfy ===
/** The two persisted settings the monitor reads: the watch list (one store ID
    per line, appended to) and the check interval (a whole number of hours,
    overwritten).  Files are values here: what a read finds at the path, and
    what a write leaves there. */
module Persist {
  import opened Results

  /** What the program finds at a fixed path. */
  datatype File = Absent | Inaccessible | Present(content: string)

  datatype FileError =
    | IoError             // the file exists but cannot be opened, or cannot be written
    | Malformed           // the interval file holds no integer in range
    | UnsupportedNumeral  // an integer spelling this model does not decode (see the README)

  const NewLine: char := '\n'
  const CarriageReturn: char := '\r'

  // ---------------------------------------------------------------------------
  // The watch-list file

  /** The position of the first line feed, if any. */
  function FindNewline(s: string): (r: Option<nat>)
    ensures r.None? <==> NewLine !in s
    ensures r.Some? ==> r.value < |s| && s[r.value] == NewLine
    ensures r.Some? ==> forall j :: 0 <= j < r.value ==> s[j] != NewLine
  {
    if |s| == 0 then None
    else if s[0] == NewLine then Some(0)
    else
      match FindNewline(s[1..])
      case None => None
      case Some(k) => Some(k + 1)
  }

  /** A line loses one trailing carriage return, as a line scanner drops it. */
  function DropCR(line: string): (r: string)
    ensures |line| > 0 && line[|line| - 1] == CarriageReturn ==> r == line[..|line| - 1]
    ensures !(|line| > 0 && line[|line| - 1] == CarriageReturn) ==> r == line
  {
    if |line| > 0 && line[|line| - 1] == CarriageReturn then line[..|line| - 1] else line
  }

  /** Reading a file line by line: every line feed ends a line (which may be
      empty), one carriage return before it is dropped, and the text after
      the last line feed is a last line only when it is not empty. */
  function ScanLines(data: string): (lines: seq<string>)
    ensures forall i :: 0 <= i < |lines| ==> NewLine !in lines[i]
    ensures |lines| <= |data|
    decreases |data|
  {
    if |data| == 0 then []
    else
      match FindNewline(data)
      case Some(i) =>
        assert forall c :: c in DropCR(data[..i]) ==> c in data[..i];
        [DropCR(data[..i])] + ScanLines(data[i + 1..])
      case None =>
        assert forall c :: c in DropCR(data) ==> c in data;
        [DropCR(data)]
  }

  /** Reading the watch list: no file means an empty list, not an error. */
  function ReadStoreIds(f: File): (r: Result<seq<string>, FileError>)
    ensures f.Absent? ==> r == Ok([])
    ensures r.Err? <==> f.Inaccessible?
    ensures f.Present? ==> r == Ok(ScanLines(f.content))
  {
    match f
    case Absent => Ok([])
    case Inaccessible => Err(IoError)
    case Present(content) => Ok(ScanLines(content))
  }

  /** Adding one store ID: the file is created if needed and the ID is
      appended with a line feed; nothing already there is changed. */
  function WriteStoreId(f: File, id: string): (r: Result<File, FileError>)
    ensures r.Err? <==> f.Inaccessible?
    ensures f.Absent? ==> r == Ok(Present(id + [NewLine]))
    ensures f.Present? ==> r == Ok(Present(f.content + id + [NewLine]))
  {
    match f
    case Absent => Ok(Present(id + [NewLine]))
    case Inaccessible => Err(IoError)
    case Present(content) => Ok(Present(content + id + [NewLine]))
  }

  /** Adding several IDs one after the other. */
  function WriteStoreIds(f: File, ids: seq<string>): (r: Result<File, FileError>)
    decreases |ids|
  {
    if |ids| == 0 then Ok(f)
    else
      match WriteStoreIds(f, ids[..|ids| - 1])
      case Err(e) => Err(e)
      case Ok(g) => WriteStoreId(g, ids[|ids| - 1])
  }

  /** An ID that reads back as itself: no line feed inside, no carriage
      return at its end. */
  predicate IsLineSafe(id: string) {
    NewLine !in id && !(|id| > 0 && id[|id| - 1] == CarriageReturn)
  }

  /** A file every one of whose lines has been terminated. */
  predicate EndsWithNewline(content: string) {
    |content| == 0 || content[|content| - 1] == NewLine
  }

  lemma FindNewlineExtend(s: string, x: string)
    requires FindNewline(s).Some?
    ensures FindNewline(s + x) == FindNewline(s)
  {
    var i := FindNewline(s).value;
    var r := FindNewline(s + x);
    assert (s + x)[i] == NewLine;
    assert r.value <= i;
  }

  lemma ScanLinesStep(data: string, i: nat)
    requires FindNewline(data) == Some(i)
    ensures ScanLines(data) == [DropCR(data[..i])] + ScanLines(data[i + 1..])
  {
  }

  /** A single terminated line reads back as itself. */
  lemma SingleLineReadBack(id: string)
    requires IsLineSafe(id)
    ensures ScanLines(id + [NewLine]) == [id]
  {
    var line := id + [NewLine];
    assert line[|id|] == NewLine;
    assert forall j :: 0 <= j < |id| ==> line[j] == id[j];
    assert FindNewline(line) == Some(|id|);
    ScanLinesStep(line, |id|);
    assert line[..|id|] == id;
    assert line[|id| + 1..] == [];
  }

  /** Text appended after a line feed does not change the first line. */
  lemma ScanLinesFirstLine(content: string, more: string, i: nat)
    requires FindNewline(content) == Some(i)
    ensures ScanLines(content + more) == [DropCR(content[..i])] + ScanLines(content[i + 1..] + more)
  {
    var whole := content + more;
    FindNewlineExtend(content, more);
    ScanLinesStep(whole, i);
    SliceOfConcat(content, more, i);
  }

  lemma SliceOfConcat(a: string, b: string, i: nat)
    requires i < |a|
    ensures (a + b)[..i] == a[..i]
    ensures (a + b)[i + 1..] == a[i + 1..] + b
  {
  }

  /** Appending a line to a terminated file adds exactly that line to what
      the scanner reads back. */
  lemma {:induction false} AppendedLineReadBack(content: string, id: string)
    requires EndsWithNewline(content)
    requires IsLineSafe(id)
    ensures ScanLines(content + id + [NewLine]) == ScanLines(content) + [id]
    decreases |content|
  {
    var line := id + [NewLine];
    assert content + id + [NewLine] == content + line;
    if |content| == 0 {
      assert content + line == line;
      SingleLineReadBack(id);
    } else {
      assert content[|content| - 1] == NewLine;
      var i := FindNewline(content).value;
      var first := DropCR(content[..i]);
      var rest := content[i + 1..];
      assert EndsWithNewline(rest);
      assert rest + id + [NewLine] == rest + line;
      calc {
        ScanLines(content + line);
        { ScanLinesFirstLine(content, line, i); }
        [first] + ScanLines(rest + line);
        { AppendedLineReadBack(rest, id); }
        [first] + (ScanLines(rest) + [id]);
        ([first] + ScanLines(rest)) + [id];
        { ScanLinesStep(content, i); }
        ScanLines(content) + [id];
      }
    }
  }

  /** The append writes no line feed before the ID: on a file whose last line
      is not terminated (one edited by hand, say), the new ID joins that line
      instead of starting its own. */
  lemma UnterminatedLineAbsorbsAppend(content: string, id: string)
    requires |content| > 0 && IsLineSafe(content)
    requires |id| > 0 && IsLineSafe(id)
    ensures ReadStoreIds(Present(content)) == Ok([content])
    ensures WriteStoreId(Present(content), id).Ok?
    ensures ReadStoreIds(WriteStoreId(Present(content), id).value) == Ok([content + id])
  {
    assert FindNewline(content).None?;
    assert NewLine !in content + id by {
      forall j | 0 <= j < |content + id|
        ensures (content + id)[j] != NewLine
      {
        if j < |content| { assert content[j] in content; } else { assert id[j - |content|] in id; }
      }
    }
    assert (content + id)[|content + id| - 1] == id[|id| - 1];
    SingleLineReadBack(content + id);
    assert content + id + [NewLine] == (content + id) + [NewLine];
  }

  /** The file a run of appends leaves behind, starting from no file. */
  function EncodeStoreIds(ids: seq<string>): (content: string)
    ensures EndsWithNewline(content)
    ensures |ids| > 0 ==> |content| > 0
  {
    if |ids| == 0 then [] else EncodeStoreIds(ids[..|ids| - 1]) + ids[|ids| - 1] + [NewLine]
  }

  /** Reading back a file made of appended IDs gives exactly those IDs, in
      the order they were added. */
  lemma {:induction false} StoreIdsRoundTrip(ids: seq<string>)
    requires forall i :: 0 <= i < |ids| ==> IsLineSafe(ids[i])
    ensures ScanLines(EncodeStoreIds(ids)) == ids
    decreases |ids|
  {
    if |ids| > 0 {
      var init := ids[..|ids| - 1];
      StoreIdsRoundTrip(init);
      AppendedLineReadBack(EncodeStoreIds(init), ids[|ids| - 1]);
      assert init + [ids[|ids| - 1]] == ids;
    }
  }

  /** Adding IDs to a missing watch-list file and reading it back gives those
      IDs; adding one ID to a file written this way extends what is read by
      that ID alone. */
  lemma {:induction false} WriteThenReadStoreIds(ids: seq<string>)
    requires forall i :: 0 <= i < |ids| ==> IsLineSafe(ids[i])
    ensures |ids| > 0 ==> WriteStoreIds(Absent, ids) == Ok(Present(EncodeStoreIds(ids)))
    ensures |ids| > 0 ==> ReadStoreIds(WriteStoreIds(Absent, ids).value) == Ok(ids)
    ensures |ids| == 0 ==> WriteStoreIds(Absent, ids) == Ok(Absent) && ReadStoreIds(Absent) == Ok(ids)
    decreases |ids|
  {
    if |ids| > 0 {
      var init := ids[..|ids| - 1];
      WriteThenReadStoreIds(init);
      assert EncodeStoreIds(ids) == EncodeStoreIds(init) + ids[|ids| - 1] + [NewLine];
      if |init| == 0 {
        assert EncodeStoreIds(init) == [];
        assert EncodeStoreIds(ids) == ids[0] + [NewLine];
      }
      StoreIdsRoundTrip(ids);
    }
  }

  /** One append, seen through a read: the previous list followed by the new
      ID, provided the file was terminated and the ID is line-safe. */
  lemma AppendStoreIdThenRead(f: File, id: string)
    requires f.Absent? || (f.Present? && EndsWithNewline(f.content))
    requires IsLineSafe(id)
    ensures WriteStoreId(f, id).Ok?
    ensures ReadStoreIds(WriteStoreId(f, id).value) == Ok(ReadStoreIds(f).value + [id])
  {
    if f.Absent? {
      AppendedLineReadBack([], id);
      assert [] + id + [NewLine] == id + [NewLine];
    } else {
      AppendedLineReadBack(f.content, id);
    }
  }

  // ---------------------------------------------------------------------------
  // The interval file

  const MinInt64: int := -0x8000_0000_0000_0000
  const MaxInt64: int := 0x7FFF_FFFF_FFFF_FFFF

  predicate IsDigit(c: char) {
    '0' <= c <= '9'
  }

  predicate AllDigits(s: string) {
    forall i :: 0 <= i < |s| ==> IsDigit(s[i])
  }

  function DigitChar(d: nat): (c: char)
    requires d < 10
    ensures IsDigit(c)
  {
    ('0' as int + d) as char
  }

  function DigitValue(c: char): nat
    requires IsDigit(c)
  {
    c as int - '0' as int
  }

  /** Decimal spelling of a natural, most significant digit first, without
      leading zeros. */
  function FormatNat(n: nat): (s: string)
    ensures |s| > 0 && AllDigits(s)
    ensures s[0] == '0' ==> n == 0 && |s| == 1
  {
    if n < 10 then [DigitChar(n)] else FormatNat(n / 10) + [DigitChar(n % 10)]
  }

  /** The `%d` verb on an int. */
  function FormatInt(n: int): (s: string)
    ensures |s| > 0
    ensures n < 0 <==> s[0] == '-'
    ensures n >= 0 ==> AllDigits(s)
    ensures n < 0 ==> |s| > 1 && AllDigits(s[1..])
  {
    if n < 0 then "-" + FormatNat(-n) else FormatNat(n)
  }

  /** The value of a run of decimal digits. */
  function DigitsValue(ds: string): nat
    requires AllDigits(ds)
  {
    if |ds| == 0 then 0 else DigitsValue(ds[..|ds| - 1]) * 10 + DigitValue(ds[|ds| - 1])
  }

  lemma {:induction false} FormatNatValue(n: nat)
    ensures DigitsValue(FormatNat(n)) == n
  {
    if n >= 10 {
      FormatNatValue(n / 10);
      var s := FormatNat(n);
      assert s[..|s| - 1] == FormatNat(n / 10);
    }
  }

  /** The characters the integer scanner skips before a number: the white
      space of Unicode's White_Space property that Go's formatted input
      recognises, line ends included. */
  predicate IsSpace(c: char) {
    || '\U{09}' <= c <= '\U{0D}'
    || c == ' '
    || c == '\U{85}'
    || c == '\U{A0}'
    || c == '\U{1680}'
    || '\U{2000}' <= c <= '\U{200A}'
    || c == '\U{2028}' || c == '\U{2029}'
    || c == '\U{202F}'
    || c == '\U{205F}'
    || c == '\U{3000}'
  }

  /** The text after the leading white space. */
  function SkipSpace(s: string): (r: string)
    ensures |r| <= |s| && r == s[|s| - |r|..]
    ensures |r| > 0 ==> !IsSpace(r[0])
    ensures forall i :: 0 <= i < |s| - |r| ==> IsSpace(s[i])
  {
    if |s| > 0 && IsSpace(s[0]) then
      var r := SkipSpace(s[1..]);
      assert forall i :: 1 <= i < |s| - |r| ==> s[i] == s[1..][i - 1];
      r
    else s
  }

  /** The longest run of decimal digits at the front of `s`. */
  function DigitRun(s: string): (r: string)
    ensures |r| <= |s| && r == s[..|r|]
    ensures AllDigits(r)
    ensures |r| < |s| ==> !IsDigit(s[|r|])
  {
    if |s| > 0 && IsDigit(s[0]) then [s[0]] + DigitRun(s[1..]) else []
  }

  /** Reading one integer the way the formatted scanner does: skip white
      space, take an optional sign and a run of decimal digits, ignore what
      follows; no digits, or a value outside the 64-bit range, is an error.
      Spellings the scanner reads in another base or with digit separators
      (a leading 0 followed by more digits or by b, o, x; an underscore right
      after the digits) are reported as UnsupportedNumeral. */
  function ParseInt(s: string): (r: Result<int, FileError>)
    ensures r.Ok? ==> MinInt64 <= r.value <= MaxInt64
    ensures (forall i :: 0 <= i < |s| ==> IsSpace(s[i])) ==> r == Err(Malformed)
  {
    var t := SkipSpace(s);
    if |t| == 0 then Err(Malformed) else ParseToken(t)
  }

  /** An integer right at the start of `t`, after the white space. */
  function ParseToken(t: string): (r: Result<int, FileError>)
    requires |t| > 0
    ensures r.Ok? ==> MinInt64 <= r.value <= MaxInt64
  {
    var negative := t[0] == '-';
    var u := if t[0] == '-' || t[0] == '+' then t[1..] else t;
    match ParseMagnitude(u)
    case Err(e) => Err(e)
    case Ok(magnitude) =>
      var m: int := magnitude;
      var v := if negative then -m else m;
      if MinInt64 <= v <= MaxInt64 then Ok(v) else Err(Malformed)
  }

  /** The unsigned part of an integer: the leading run of decimal digits,
      which must not be empty. */
  function ParseMagnitude(u: string): (r: Result<nat, FileError>)
    ensures r.Ok? ==> |DigitRun(u)| > 0 && r.value == DigitsValue(DigitRun(u))
  {
    var ds := DigitRun(u);
    var after := u[|ds|..];
    if |ds| == 0 then Err(Malformed)
    else if ds[0] == '0' && (|ds| > 1 || (|after| > 0 && after[0] in "bBoOxX_")) then Err(UnsupportedNumeral)
    else if |after| > 0 && after[0] == '_' then Err(UnsupportedNumeral)
    else Ok(DigitsValue(ds))
  }

  /** Reading the interval in hours: no file means 0, not an error. */
  function ReadInterval(f: File): (r: Result<int, FileError>)
    ensures f.Absent? ==> r == Ok(0)
    ensures f.Inaccessible? ==> r == Err(IoError)
    ensures r.Ok? ==> MinInt64 <= r.value <= MaxInt64
  {
    match f
    case Absent => Ok(0)
    case Inaccessible => Err(IoError)
    case Present(content) => ParseInt(content)
  }

  /** Writing the interval replaces the whole file by the hour count. */
  function WriteInterval(f: File, hours: int): (r: Result<File, FileError>)
    ensures r.Err? <==> f.Inaccessible?
    ensures r.Ok? ==> r.value.Present?
  {
    if f.Inaccessible? then Err(IoError) else Ok(Present(FormatInt(hours)))
  }

  lemma {:induction false} DigitRunOfDigits(ds: string)
    requires AllDigits(ds)
    ensures DigitRun(ds) == ds
    decreases |ds|
  {
    if |ds| > 0 {
      DigitRunOfDigits(ds[1..]);
      assert [ds[0]] + ds[1..] == ds;
    }
  }

  /** Digits without a leading zero, and nothing after them, read as their
      value. */
  lemma MagnitudeOfDigits(digits: string)
    requires |digits| > 0 && AllDigits(digits)
    requires digits[0] == '0' ==> |digits| == 1
    ensures ParseMagnitude(digits) == Ok(DigitsValue(digits))
  {
    DigitRunOfDigits(digits);
    assert digits[|digits|..] == [];
  }

  /** Text that starts with a non-space is read from its first character. */
  lemma ParseIntNoSpace(s: string)
    requires |s| > 0 && !IsSpace(s[0])
    ensures ParseInt(s) == ParseToken(s)
  {
    assert SkipSpace(s) == s;
  }

  /** A signless spelling that starts with a digit reads as its digits'
      value, provided it has no leading zero. */
  lemma ParseUnsigned(digits: string)
    requires |digits| > 0 && AllDigits(digits)
    requires digits[0] == '0' ==> |digits| == 1
    requires DigitsValue(digits) <= MaxInt64
    ensures ParseInt(digits) == Ok(DigitsValue(digits))
  {
    ParseIntNoSpace(digits);
    MagnitudeOfDigits(digits);
  }

  /** A minus sign before a magnitude within range negates it. */
  lemma NegativeToken(s: string, m: nat)
    requires |s| > 0 && s[0] == '-'
    requires ParseMagnitude(s[1..]) == Ok(m)
    requires m <= -MinInt64
    ensures ParseToken(s) == Ok(-(m as int))
  {
  }

  /** A minus sign followed by digits without leading zero reads as the
      negated value. */
  lemma ParseNegative(s: string)
    requires |s| > 1 && s[0] == '-' && AllDigits(s[1..])
    requires s[1] == '0' ==> |s| == 2
    requires DigitsValue(s[1..]) <= -MinInt64
    ensures ParseInt(s) == Ok(-(DigitsValue(s[1..]) as int))
  {
    var m := DigitsValue(s[1..]);
    assert ParseMagnitude(s[1..]) == Ok(m) by { MagnitudeOfDigits(s[1..]); }
    NegativeToken(s, m);
    ParseIntNoSpace(s);
  }

  /** The decimal spelling reads back as the same integer. */
  lemma ParseFormatRoundTrip(n: int)
    requires MinInt64 <= n <= MaxInt64
    ensures ParseInt(FormatInt(n)) == Ok(n)
  {
    if n < 0 {
      var ds := FormatNat(-n);
      assert FormatInt(n)[1..] == ds;
      FormatNatValue(-n);
      ParseNegative(FormatInt(n));
    } else {
      var ds := FormatNat(n);
      assert FormatInt(n) == ds;
      FormatNatValue(n);
      ParseUnsigned(ds);
    }
  }

  /** Writing h hours and reading the interval back gives h, whatever was in
      the file before. */
  lemma IntervalRoundTrip(f: File, hours: int)
    requires !f.Inaccessible?
    requires MinInt64 <= hours <= MaxInt64
    ensures WriteInterval(f, hours).Ok?
    ensures ReadInterval(WriteInterval(f, hours).value) == Ok(hours)
  {
    ParseFormatRoundTrip(hours);
  }
}

=== FILE: results.dfy ===
/** Failure-carrying values shared by every module of the model. */
module Results {

  /** A value that may be missing. */
  datatype Option<+T> = None | Some(value: T)

  /** The outcome of an operation that can fail: a value, or an error and no value. */
  datatype Result<+T, +E> = Ok(value: T) | Err(error: E)
}

=== FILE: schedule.dfy ===
/** The `scheduleForJsonLD` field of a store entry, which the upstream service
    sends either as one string or as an array of strings, and its custom
    decoder that always yields a list. */
module Schedule {
  import opened Results

  /** A parsed JSON value (numbers kept as integers: the decoder never looks
      inside them). */
  datatype Json =
    | JNull
    | JBool(b: bool)
    | JNumber(n: int)
    | JString(s: string)
    | JArray(items: seq<Json>)
    | JObject(members: seq<(string, Json)>)

  datatype DecodeError = TypeMismatch

  /** Decoding one JSON value into a Go string: a string gives its text, null
      leaves the string at its zero value "", anything else is a type error. */
  function StringOf(v: Json): (r: Option<string>)
    ensures r.Some? <==> v.JString? || v.JNull?
    ensures v.JString? ==> r == Some(v.s)
    ensures v.JNull? ==> r == Some("")
  {
    match v
    case JString(s) => Some(s)
    case JNull => Some("")
    case _ => None
  }

  /** Decoding a JSON array into a `[]string`: succeeds exactly when every
      element decodes as a string, and then keeps every element in order. */
  function DecodeStrings(items: seq<Json>): (r: Result<seq<string>, DecodeError>)
    ensures r.Ok? <==> forall i :: 0 <= i < |items| ==> StringOf(items[i]).Some?
    ensures r.Ok? ==> |r.value| == |items|
    ensures r.Ok? ==> forall i :: 0 <= i < |items| ==> r.value[i] == StringOf(items[i]).value
  {
    if |items| == 0 then Ok([])
    else
      match StringOf(items[0])
      case None => Err(TypeMismatch)
      case Some(first) =>
        match DecodeStrings(items[1..])
        case Err(e) => Err(e)
        case Ok(rest) => Ok([first] + rest)
  }

  /** The custom UnmarshalJSON: first try the value as one string (which also
      accepts null, leaving ""), then as an array of strings; if neither shape
      fits the decoder fails and yields no list. */
  function UnmarshalSchedule(v: Json): (r: Result<seq<string>, DecodeError>)
    ensures v.JString? ==> r == Ok([v.s])
    ensures v.JNull? ==> r == Ok([""])
    ensures r.Ok? <==> (v.JString? || v.JNull? ||
                        (v.JArray? && forall i :: 0 <= i < |v.items| ==> StringOf(v.items[i]).Some?))
    ensures v.JArray? && r.Ok? ==>
              |r.value| == |v.items| &&
              forall i :: 0 <= i < |v.items| ==> r.value[i] == StringOf(v.items[i]).value
  {
    match StringOf(v)
    case Some(single) => Ok([single])
    case None =>
      if v.JArray? then DecodeStrings(v.items) else Err(TypeMismatch)
  }

  /** The list form of the field as the upstream service writes it. */
  function EncodeSchedule(xs: seq<string>): (v: Json)
    ensures v.JArray? && |v.items| == |xs|
    ensures forall i :: 0 <= i < |xs| ==> v.items[i] == JString(xs[i])
  {
    if |xs| == 0 then JArray([])
    else JArray([JString(xs[0])] + EncodeSchedule(xs[1..]).items)
  }

  /** An array of strings decodes to exactly that list. */
  lemma {:induction false} DecodeEncodeRoundTrip(xs: seq<string>)
    ensures UnmarshalSchedule(EncodeSchedule(xs)) == Ok(xs)
  {
    var v := EncodeSchedule(xs);
    var r := UnmarshalSchedule(v);
    assert r.Ok?;
    assert |r.value| == |xs|;
    forall i | 0 <= i < |xs|
      ensures r.value[i] == xs[i]
    {
      assert StringOf(v.items[i]) == Some(xs[i]);
    }
    assert r.value == xs;
  }

  /** Both shapes of the field carry the same schedule when the array has the
      single string as its only element. */
  lemma SingleStringMatchesOneElementArray(s: string)
    ensures UnmarshalSchedule(JString(s)) == UnmarshalSchedule(JArray([JString(s)]))
  {
    DecodeEncodeRoundTrip([s]);
    assert EncodeSchedule([s]) == JArray([JString(s)]);
  }
}

=== FILE: sniper.dfy ===
/** The monitoring loop: region endpoint selection, the configured interval
    as a 64-bit nanosecond duration, the one-second countdown between checks,
    and the start of the sniper with its refusal to watch nothing. */
module Sniper {
  import opened Results
  import opened Store
  import opened Availability
  import Persist

  /** The store directories the program knows. */
  datatype Region = Italy | Germany | France

  /** The regional store-locator query: the same product (735577), with
      click-and-collect and store stock requested, around the same point;
      only the national site, its locale and the search radius differ (the
      Italian site searches within 15000 where the others use 150000). */
  function EndpointUrl(r: Region): string {
    SitePrefix + TopLevelDomain(r) + PathAndQuery(r)
  }

  const SitePrefix: string := "https://www.sephora."

  const SitePath: string := "/on/demandware.store/Sites-Sephora_"
  const StoreLocator: string := "-Site/"
  const ProductQuery: string := "/Stores-FindNearestStores?pid=735577&clickcollect=true&pdpstock=true"
  const Coordinates: string := "&latitude=38.2088210000000&longitude=15.5470420606796&searchedRadius="
  const ServicesFilter: string := "&storeservices="

  function PathAndQuery(r: Region): string {
    SitePath + CountryCode(r) + StoreLocator + Locale(r)
    + ProductQuery + Coordinates + SearchRadius(r) + ServicesFilter
  }

  function TopLevelDomain(r: Region): string {
    match r
    case Italy => "it"
    case Germany => "de"
    case France => "fr"
  }

  function Locale(r: Region): string {
    match r
    case Italy => "it_IT"
    case Germany => "de_DE"
    case France => "fr_FR"
  }

  function SearchRadius(r: Region): string {
    match r
    case Italy => "15000"
    case Germany => "150000"
    case France => "150000"
  }

  /** The code the first-run prompt stores for each region; it is also the
      site code inside the region's endpoint. */
  function CountryCode(r: Region): string {
    match r
    case Italy => "IT"
    case Germany => "DE"
    case France => "FR"
  }

  /** The stored country selection picks the endpoint: exactly "IT" selects
      Italy, exactly "DE" selects Germany, and anything else, including a
      lower-case or empty selection, falls back to France. */
  function SelectRegion(country: string): (r: Region)
    ensures r == Italy <==> country == "IT"
    ensures r == Germany <==> country == "DE"
    ensures r == France <==> country != "IT" && country != "DE"
  {
    if country == "IT" then Italy
    else if country == "DE" then Germany
    else France
  }

  /** Every code the first-run prompt can store selects its own region, and
      the three regions use three different endpoints. */
  lemma RegionSelectionRoundTrip(r: Region)
    ensures SelectRegion(CountryCode(r)) == r
    ensures forall q: Region :: q != r ==> EndpointUrl(q) != EndpointUrl(r)
  {
    forall q: Region | q != r
      ensures EndpointUrl(q) != EndpointUrl(r)
    {
      EndpointDomainLetter(q);
      EndpointDomainLetter(r);
      DifferAt(EndpointUrl(q), EndpointUrl(r), |SitePrefix|);
    }
  }

  /** Assembled from its parts, each endpoint is the program's constant for
      that country, given here in six consecutive chunks of its text. */
  lemma FranceEndpointSpelledOut()
    ensures EndpointUrl(France)
         == "https://www.sephora.fr"
          + "/on/demandware.store/Sites-Sephora_FR" + "-Site/fr_FR"
          + "/Stores-FindNearestStores?pid=735577&clickcollect=true&pdpstock=true"
          + "&latitude=38.2088210000000&longitude=15.5470420606796&searchedRadius="
          + "150000&storeservices="
  {
    Regroup(SitePrefix, TopLevelDomain(France), SitePath, CountryCode(France), StoreLocator, Locale(France),
            ProductQuery, Coordinates, SearchRadius(France), ServicesFilter);
    DomainChunk(France);
    SiteChunk(France);
    LocaleChunk(France);
    RadiusChunk(France);
  }

  lemma ItalyEndpointSpelledOut()
    ensures EndpointUrl(Italy)
         == "https://www.sephora.it"
          + "/on/demandware.store/Sites-Sephora_IT" + "-Site/it_IT"
          + "/Stores-FindNearestStores?pid=735577&clickcollect=true&pdpstock=true"
          + "&latitude=38.2088210000000&longitude=15.5470420606796&searchedRadius="
          + "15000&storeservices="
  {
    Regroup(SitePrefix, TopLevelDomain(Italy), SitePath, CountryCode(Italy), StoreLocator, Locale(Italy),
            ProductQuery, Coordinates, SearchRadius(Italy), ServicesFilter);
    DomainChunk(Italy);
    SiteChunk(Italy);
    LocaleChunk(Italy);
    RadiusChunk(Italy);
  }

  lemma GermanyEndpointSpelledOut()
    ensures EndpointUrl(Germany)
         == "https://www.sephora.de"
          + "/on/demandware.store/Sites-Sephora_DE" + "-Site/de_DE"
          + "/Stores-FindNearestStores?pid=735577&clickcollect=true&pdpstock=true"
          + "&latitude=38.2088210000000&longitude=15.5470420606796&searchedRadius="
          + "150000&storeservices="
  {
    Regroup(SitePrefix, TopLevelDomain(Germany), SitePath, CountryCode(Germany), StoreLocator, Locale(Germany),
            ProductQuery, Coordinates, SearchRadius(Germany), ServicesFilter);
    DomainChunk(Germany);
    SiteChunk(Germany);
    LocaleChunk(Germany);
    RadiusChunk(Germany);
  }

  lemma Regroup(a: string, b: string, s1: string, s2: string, s3: string, s4: string,
                p: string, c: string, t1: string, t2: string)
    ensures a + b + (s1 + s2 + s3 + s4 + p + c + t1 + t2)
         == (a + b) + (s1 + s2) + (s3 + s4) + p + c + (t1 + t2)
  {
  }

  /** The host part of an endpoint. */
  lemma DomainChunk(r: Region)
    ensures SitePrefix + TopLevelDomain(r)
         == match r
            case France => "https://www.sephora.fr"
            case Italy => "https://www.sephora.it"
            case Germany => "https://www.sephora.de"
  {
  }

  /** The site part of an endpoint. */
  lemma SiteChunk(r: Region)
    ensures SitePath + CountryCode(r)
         == match r
            case France => "/on/demandware.store/Sites-Sephora_FR"
            case Italy => "/on/demandware.store/Sites-Sephora_IT"
            case Germany => "/on/demandware.store/Sites-Sephora_DE"
  {
  }

  /** The locale part of an endpoint. */
  lemma LocaleChunk(r: Region)
    ensures StoreLocator + Locale(r)
         == match r
            case France => "-Site/fr_FR"
            case Italy => "-Site/it_IT"
            case Germany => "-Site/de_DE"
  {
  }

  /** The end of an endpoint, from the search radius on. */
  lemma RadiusChunk(r: Region)
    ensures SearchRadius(r) + ServicesFilter
         == match r
            case France => "150000&storeservices="
            case Italy => "15000&storeservices="
            case Germany => "150000&storeservices="
  {
  }

  /** The first letter after the site prefix is the first letter of the
      region's top-level domain. */
  lemma EndpointDomainLetter(r: Region)
    ensures |EndpointUrl(r)| > |SitePrefix|
    ensures EndpointUrl(r)[|SitePrefix|] == DomainInitial(r)
  {
    ConcatIndex(SitePrefix, TopLevelDomain(r), PathAndQuery(r), |SitePrefix|);
  }

  function DomainInitial(r: Region): char {
    match r
    case Italy => 'i'
    case Germany => 'd'
    case France => 'f'
  }

  lemma DifferAt(a: string, b: string, n: nat)
    requires n < |a| && n < |b| && a[n] != b[n]
    ensures a != b
  {
  }

  lemma ConcatIndex(a: string, b: string, c: string, i: nat)
    requires |a| <= i < |a| + |b|
    ensures (a + b + c)[i] == b[i - |a|]
  {
  }

  // ---------------------------------------------------------------------------
  // Durations

  const NanosPerSecond: int := 1_000_000_000
  const NanosPerHour: int := 3600 * NanosPerSecond
  /** The largest hour count whose duration fits a signed 64-bit count of
      nanoseconds. */
  const MaxWholeHours: int := 2_562_047

  /** Two's-complement wrap-around to 64 bits. */
  function Wrap64(x: int): (r: int)
    ensures Persist.MinInt64 <= r <= Persist.MaxInt64
    ensures Persist.MinInt64 <= x <= Persist.MaxInt64 ==> r == x
    ensures (x - r) % 0x1_0000_0000_0000_0000 == 0
  {
    (x - Persist.MinInt64) % 0x1_0000_0000_0000_0000 + Persist.MinInt64
  }

  /** The interval the loop waits, from the stored hour count: the product
      with one hour in 64-bit nanoseconds, exact for up to MaxWholeHours
      hours either way and wrapped beyond. */
  function IntervalOf(hours: int): (d: int)
    ensures Persist.MinInt64 <= d <= Persist.MaxInt64
    ensures -MaxWholeHours <= hours <= MaxWholeHours ==> d == hours * NanosPerHour
    ensures (hours * NanosPerHour - d) % 0x1_0000_0000_0000_0000 == 0
  {
    Wrap64(hours * NanosPerHour)
  }

  /** The seconds shown by the countdown, one per one-second sleep: the
      remaining time truncated to whole seconds, from the full interval down,
      while any time remains. */
  function Countdown(remaining: int): (shown: seq<int>)
    ensures remaining <= 0 ==> shown == []
    ensures remaining > 0 ==> |shown| == (remaining + NanosPerSecond - 1) / NanosPerSecond
    ensures forall i :: 0 <= i < |shown| ==>
              shown[i] == (remaining - i * NanosPerSecond) / NanosPerSecond
    decreases remaining
  {
    if remaining <= 0 then []
    else
      var rest := Countdown(remaining - NanosPerSecond);
      var shown := [remaining / NanosPerSecond] + rest;
      assert forall i :: 1 <= i < |shown| ==> shown[i] == rest[i - 1];
      shown
  }

  /** The countdown loop itself: subtract one second per tick while time
      remains, showing the remaining whole seconds before each sleep. */
  method RunCountdown(interval: int) returns (shown: seq<int>)
    ensures shown == Countdown(interval)
  {
    shown := [];
    var remaining := interval;
    while remaining > 0
      invariant shown + Countdown(remaining) == Countdown(interval)
      decreases remaining
    {
      shown := shown + [remaining / NanosPerSecond];
      remaining := remaining - NanosPerSecond;
    }
  }

  /** With an interval of h whole hours, the loop sleeps 3600*h times and
      shows 3600*h, 3600*h - 1, ..., 1 seconds; with zero or a negative number
      of hours it does not wait at all. */
  lemma WholeHourCountdown(hours: int)
    requires -MaxWholeHours <= hours <= MaxWholeHours
    ensures hours <= 0 ==> Countdown(IntervalOf(hours)) == []
    ensures hours > 0 ==> |Countdown(IntervalOf(hours))| == 3600 * hours
    ensures hours > 0 ==> forall i :: 0 <= i < 3600 * hours ==> Countdown(IntervalOf(hours))[i] == 3600 * hours - i
  {
    var d := IntervalOf(hours);
    assert d == (3600 * hours) * NanosPerSecond;
    if hours > 0 {
      var shown := Countdown(d);
      forall i | 0 <= i < |shown|
        ensures shown[i] == 3600 * hours - i
      {
        assert d - i * NanosPerSecond == (3600 * hours - i) * NanosPerSecond;
      }
    }
  }

  /** A stored hour count beyond the 64-bit range of nanoseconds wraps: one
      hour more than MaxWholeHours becomes a negative duration, and the loop
      checks again without waiting. */
  lemma OverflowingIntervalSkipsTheWait()
    ensures IntervalOf(MaxWholeHours + 1) < 0
    ensures Countdown(IntervalOf(MaxWholeHours + 1)) == []
  {
  }

  // ---------------------------------------------------------------------------
  // The sniper loop

  /** One pass of the loop: the cycle's output, then the countdown. */
  datatype Cycle = Cycle(trace: seq<Event>, countdown: seq<int>)

  /** Why the loop is not (or no longer) running. */
  datatype Halt =
    | ConfigUnreadable(fileError: Persist.FileError)  // a settings file exists but cannot be used
    | EmptyWatchList                              // nothing to watch: refuse to start
    | FetchFailed(fetchError: FetchError)         // a fetch failed: the process exits
    | StillPolling                                // the observed replies ran out; the loop goes on

  datatype Session = Session(cycles: seq<Cycle>, halt: Halt)

  /** A cycle run on a good reply: the check of that reply's snapshot against
      the watch list, then the countdown. */
  predicate CycleFrom(reply: Reply, c: Cycle, ids: seq<string>, countdown: seq<int>, hook: string,
                      post: (string, string) -> HookReply) {
    && FetchSnapshot(reply).Ok?
    && c == Cycle(CheckAvailability(FetchSnapshot(reply).value, ids, hook, post), countdown)
  }

  /** The loop over the replies the store directory gives, one per cycle:
      each good reply yields a cycle, the first bad one ends everything. */
  function Poll(ids: seq<string>, interval: int, hook: string, replies: seq<Reply>,
                post: (string, string) -> HookReply): (s: Session)
    ensures |s.cycles| <= |replies|
    ensures s.halt.StillPolling? || s.halt.FetchFailed?
    ensures forall i :: 0 <= i < |s.cycles| ==>
              CycleFrom(replies[i], s.cycles[i], ids, Countdown(interval), hook, post)
    ensures s.halt.StillPolling? ==> |s.cycles| == |replies|
    ensures s.halt.FetchFailed? ==>
              |s.cycles| < |replies| && FetchSnapshot(replies[|s.cycles|]) == Err(s.halt.fetchError)
    decreases |replies|
  {
    if |replies| == 0 then Session([], StillPolling)
    else
      match FetchSnapshot(replies[0])
      case Err(e) => Session([], FetchFailed(e))
      case Ok(locs) =>
        var countdown := Countdown(interval);
        var rest := Poll(ids, interval, hook, replies[1..], post);
        var first := Cycle(CheckAvailability(locs, ids, hook, post), countdown);
        assert CycleFrom(replies[0], first, ids, countdown, hook, post);
        var cycles := [first] + rest.cycles;
        assert forall i :: 1 <= i < |cycles| ==> cycles[i] == rest.cycles[i - 1];
        assert forall i :: 1 <= i < |replies| ==> replies[i] == replies[1..][i - 1];
        Session(cycles, rest.halt)
  }

  /** Starting the sniper with the watch list and interval read at start-up:
      an empty watch list refuses to start; otherwise every cycle checks the
      same list and waits the same interval, until a fetch fails. */
  function StartSniper(ids: seq<string>, hours: int, hook: string, replies: seq<Reply>,
                       post: (string, string) -> HookReply): (s: Session)
    ensures s.halt.EmptyWatchList? <==> |ids| == 0
    ensures |ids| > 0 ==> s.halt.StillPolling? || s.halt.FetchFailed?
    ensures |ids| == 0 ==> s.cycles == []
    ensures |s.cycles| <= |replies|
    ensures forall i :: 0 <= i < |s.cycles| ==>
              && FetchSnapshot(replies[i]).Ok?
              && s.cycles[i].trace == CheckAvailability(FetchSnapshot(replies[i]).value, ids, hook, post)
              && s.cycles[i].countdown == Countdown(IntervalOf(hours))
    ensures s.halt.FetchFailed? ==>
              |s.cycles| < |replies| && FetchSnapshot(replies[|s.cycles|]) == Err(s.halt.fetchError)
    ensures s.halt.StillPolling? ==> |s.cycles| == |replies|
  {
    if |ids| == 0 then Session([], EmptyWatchList)
    else Poll(ids, IntervalOf(hours), hook, replies, post)
  }

  /** From the files to the loop: an unusable settings file stops the
      program, a missing one gives the default (so a first run, with no
      watch-list file, refuses to start). */
  function Launch(idFile: Persist.File, intervalFile: Persist.File, hook: string, replies: seq<Reply>,
                  post: (string, string) -> HookReply): (s: Session)
    ensures idFile.Inaccessible? ==> s == Session([], ConfigUnreadable(Persist.IoError))
    ensures !idFile.Inaccessible? && Persist.ReadInterval(intervalFile).Err? ==>
              s == Session([], ConfigUnreadable(Persist.ReadInterval(intervalFile).error))
    ensures idFile.Absent? && Persist.ReadInterval(intervalFile).Ok? ==> s == Session([], EmptyWatchList)
    ensures idFile.Present? && intervalFile.Absent? ==>
              forall i :: 0 <= i < |s.cycles| ==> s.cycles[i].countdown == []
    ensures idFile.Present? && Persist.ReadInterval(intervalFile).Ok? ==>
              s == StartSniper(Persist.ScanLines(idFile.content), Persist.ReadInterval(intervalFile).value,
                               hook, replies, post)
  {
    match Persist.ReadStoreIds(idFile)
    case Err(e) => Session([], ConfigUnreadable(e))
    case Ok(ids) =>
      match Persist.ReadInterval(intervalFile)
      case Err(e) => Session([], ConfigUnreadable(e))
      case Ok(hours) =>
        assert intervalFile.Absent? ==> hours == 0 && IntervalOf(hours) == 0;
        StartSniper(ids, hours, hook, replies, post)
  }

  /** A watch list entered ID by ID from a first run, with no interval set:
      the loop starts, every cycle checks exactly those IDs without waiting,
      and only a failed fetch stops it. */
  lemma LaunchWatchesEnteredIds(ids: seq<string>, idFile: Persist.File, hook: string, replies: seq<Reply>,
                                post: (string, string) -> HookReply)
    requires |ids| > 0
    requires forall i :: 0 <= i < |ids| ==> Persist.IsLineSafe(ids[i])
    requires Persist.WriteStoreIds(Persist.Absent, ids) == Ok(idFile)
    ensures Launch(idFile, Persist.Absent, hook, replies, post) == StartSniper(ids, 0, hook, replies, post)
    ensures var s := Launch(idFile, Persist.Absent, hook, replies, post);
            s.halt.StillPolling? || s.halt.FetchFailed?
    ensures var s := Launch(idFile, Persist.Absent, hook, replies, post);
            s.halt.StillPolling? ==> |s.cycles| == |replies|
    ensures var s := Launch(idFile, Persist.Absent, hook, replies, post);
            s.halt.FetchFailed? ==>
              |s.cycles| < |replies| && FetchSnapshot(replies[|s.cycles|]) == Err(s.halt.fetchError)
    ensures var s := Launch(idFile, Persist.Absent, hook, replies, post);
            forall i :: 0 <= i < |s.cycles| ==>
              && FetchSnapshot(replies[i]).Ok?
              && s.cycles[i].trace == CheckAvailability(FetchSnapshot(replies[i]).value, ids, hook, post)
              && s.cycles[i].countdown == []
  {
    Persist.WriteThenReadStoreIds(ids);
    assert Persist.ScanLines(idFile.content) == ids;
    assert Persist.ReadInterval(Persist.Absent) == Ok(0);
    assert IntervalOf(0) == 0;
  }
}

=== FILE: store.dfy ===
/** Store-locator data as the monitor sees it, and the fetch step that turns one
    HTTP exchange with a regional endpoint into a snapshot or a fatal error. */
module Store {
  import opened Results

  /** The fields of one store-locator entry that the monitor reads; the many
      other fields of the response (coordinates, opening hours, services, ...)
      play no part in any decision. */
  datatype Location = Location(
    id: string,
    name: string,
    city: string,
    address1: string,
    productAvailability: bool)

  /** The `locations` array of one store-locator response, in response order. */
  type Snapshot = seq<Location>

  /** What the HTTP client hands back for one GET of a store-locator endpoint.
      `Unreachable` stands for every failure before a status is known (building
      the request, dialling, TLS, the 15-second timeout) and for a body that
      cannot be read; `body` is None when the payload does not decode as a
      store response. */
  datatype Reply = Unreachable | Answered(status: int, body: Option<Snapshot>)

  datatype FetchError = TransportError | ProtocolError(status: int) | DecodeError

  const StatusOK: int := 200

  /** One fetch: only a 200 answer whose body decodes yields a snapshot; every
      other outcome is an error (the program logs it and exits). */
  function FetchSnapshot(reply: Reply): (r: Result<Snapshot, FetchError>)
    ensures r.Ok? <==> reply.Answered? && reply.status == StatusOK && reply.body.Some?
    ensures r.Ok? ==> r.value == reply.body.value
    ensures reply.Unreachable? ==> r == Err(TransportError)
    ensures reply.Answered? && reply.status != StatusOK ==> r == Err(ProtocolError(reply.status))
    ensures reply.Answered? && reply.status == StatusOK && reply.body.None? ==> r == Err(DecodeError)
  {
    match reply
    case Unreachable => Err(TransportError)
    case Answered(status, body) =>
      if status != StatusOK then Err(ProtocolError(status))
      else if body.None? then Err(DecodeError)
      else Ok(body.value)
  }
}

=== FILE: text.dfy ===
/** Character-level helpers: case folding as used for city names, and infix tests. */
module Text {

  /** Lower-cases one character.  Covers the ASCII capitals and the Latin-1
      capitals U+00C0..U+00DE (except the multiplication sign U+00D7), which is
      where the upper-case city names of the French, Italian and German store
      directories live; every other character is left as it is. */
  function LowerChar(c: char): (r: char)
    ensures IsUpper(c) ==> r as int == c as int + 32
    ensures !IsUpper(c) ==> r == c
    ensures !IsUpper(r)
  {
    if IsUpper(c) then (c as int + 32) as char else c
  }

  predicate IsUpper(c: char) {
    'A' <= c <= 'Z' || ('\U{C0}' <= c <= '\U{DE}' && c != '\U{D7}')
  }

  /** The lower-case form of a whole string, character by character. */
  function Lower(s: string): (r: string)
    ensures |r| == |s|
    ensures forall i :: 0 <= i < |s| ==> r[i] == LowerChar(s[i])
  {
    if |s| == 0 then [] else Lower(s[..|s| - 1]) + [LowerChar(s[|s| - 1])]
  }

  /** `needle` occurs in `hay` at some position. */
  predicate IsInfix(needle: string, hay: string) {
    exists k :: 0 <= k <= |hay| && IsPrefix(needle, hay[k..])
  }

  predicate IsSuffix(tail: string, s: string) {
    |tail| <= |s| && s[|s| - |tail|..] == tail
  }

  predicate IsPrefix(head: string, s: string) {
    |head| <= |s| && s[..|head|] == head
  }
}
